=== FILE: README.md ===
# Audio labelling tool: playback and annotation core

This project models the core of a desktop tool for labelling bioacoustic recordings. The tool:

- plays a decoded mono buffer through a real-time output stream;
- lets the user mark intervals `(start, end, category)` from the keyboard or by dragging over the spectrogram;
- exports each interval as its own cut file.

The model is written in Dafny. The window's state is an immutable record, `Session.State`. It holds:

- the active buffer;
- the displayed pixmap width and the spectrogram bounds;
- the playback cursor in frames;
- `is_playing`, whether a stream is open, and the stream id;
- the gain;
- the annotations;
- the pending start mark and the mouse-press time;
- the set of files already labelled.

Every handler of `MainWindow` is a pure function from one state to the next. Four helpers are pure functions too:

- the frame arithmetic of `cut_audio_segment`;
- the extension filter of `get_audio_files_in_folder`, over a directory listing given as input;
- the file-list filter of `refresh_file_list`;
- the cut-file naming of `save_labels_and_cut`.

Modules:

- `Config`: the category names and the constants: 0.1 s minimum selection, gain range [0.0, 2.0] with step 0.1, extensions `.wav` and `.mp3`.
- `Paths`: POSIX `os.path.join`, ASCII `lower()`, `endswith`, and decimal printing of an index. The printing has a parser partner and an injectivity lemma.
- `Samples`: sample rate, buffer, gain scaling.
- `FileManager`: the folder scan.
- `Cutter`: `int()` truncation, Python slice semantics (including negative bounds), and the cut.
- `Session`: the state record, the initial window, and the session invariant.
- `Playback`:
  - start, stop, and the finished-callback guard;
  - the block callback, seeking and play/pause;
  - the arrow keys.
- `Loading`: the in-memory effect of `load_audio` after decoding.
- `Labelling`:
  - start/end marking and the shared acceptance rule;
  - x-to-time conversion and mouse selection;
  - clearing, and save-and-cut with distinct cut paths.
- `FileList`: the Labeled / Unlabeled / All filter, which keeps each file's original index.
- `Events`: every handler as an event, and traces of events. Along any trace, the session invariant holds, and a finished callback with a superseded stream id stays a no-op.

Points where the code's behaviour is easy to misread, all modelled as the code does them:

- `stop_playback` increments the stream id only when a stream is open (main_window.py:475-477). The model proves that a stream is open exactly while playback is on (`Session.Inv`), so every stop of a running stream still invalidates that stream's id.
- `x_to_time` clamps the click only on the left of the plot, not on the right (`Labelling.XToTimeUnclampedOnTheRight`).
- Without spectrogram bounds, `x_to_time` uses the whole pixmap width and does not shift or clamp x. A negative x can then give a negative time (`Labelling.XToTimeWithoutBounds`).
- `set_playback_position` does not clamp its value.
- Nothing catches a failed cut write, so there is no "abort the remaining export" path.

## Model

| member | source | states |
|---|---|---|
| Config.Name | audio_labeling_project/config.py:5-12 | the six category names are non-empty and contain no path separator, so a category folder is a single path component |
| Paths.Join | audio_labeling_project/utils/file_manager.py:19 | an absolute second component replaces the first; otherwise the first component is a prefix of the result and the second is its suffix |
| Paths.Lower | audio_labeling_project/utils/file_manager.py:18 | `lower()` keeps the length, maps each character to its lower-case form, and leaves no upper-case ASCII letter |
| Paths.LowerIdempotent | audio_labeling_project/utils/file_manager.py:18 | lowering an already lowered name changes nothing, which is why matching depends only on the lowered name |
| Paths.NatToString | audio_labeling_project/ui/main_window.py:597 | the index printed in a cut name is a non-empty string of decimal digits with no leading zero, so with the round trip it is exactly the decimal form `f"{i}"` prints |
| Paths.ParseNatToString | audio_labeling_project/ui/main_window.py:597 | reading the printed index back as a decimal number gives the index (round trip) |
| Paths.NatToStringInjective | audio_labeling_project/ui/main_window.py:597 | two indices that print alike are equal |
| FileManager.AudioFilesInFolder | audio_labeling_project/utils/file_manager.py:15-20 | a path that is not a directory yields no files; every result is `join(folder, f)` for a listed entry whose lowercased name ends with one of the extensions; every such entry is returned; there are no more results than entries; for a directory the result is the entry-by-entry scan `Kept`, so listing order is kept |
| FileManager.Kept | audio_labeling_project/utils/file_manager.py:17-19 | the scan of a listing returns only joined matching entries, returns every matching entry, and is never longer than the listing |
| FileManager.KeptAppend | audio_labeling_project/utils/file_manager.py:17-19 | the scan keeps listing order: scanning two consecutive runs of a listing gives the first run's results followed by the second's |
| FileManager.KeptSingle | audio_labeling_project/utils/file_manager.py:18-19 | one entry yields `[join(folder, f)]` if it matches and nothing otherwise |
| FileManager.MatchIgnoresNameCase | audio_labeling_project/utils/file_manager.py:18 | matching depends only on the lowercased entry name |
| FileManager.UpperCaseExtensionNeverMatches | audio_labeling_project/utils/file_manager.py:18 | extensions are not lowercased, so an extension with an upper-case letter matches no entry |
| FileManager.UpperCaseNameMatches | audio_labeling_project/utils/file_manager.py:18 | "CALL.WAV" matches the configured extensions `.wav` / `.mp3` |
| Cutter.Trunc | audio_labeling_project/audio_processor/cutter.py:16-17 | `int()` rounds toward zero: the floor for non-negative values, the ceiling for negative ones |
| Cutter.TruncMonotone | audio_labeling_project/audio_processor/cutter.py:16-17 | truncation preserves the order of two values |
| Cutter.SliceBound | audio_labeling_project/audio_processor/cutter.py:19 | a slice bound is counted from the end when negative, then clamped to [0, N] |
| Cutter.PySlice | audio_labeling_project/audio_processor/cutter.py:19 | `a[i:j]` is `a[i..j]` for `0 <= i <= j <= N`; it stops at N when `j > N`; it is empty when `0 <= j <= i` or `i >= N`; for any bounds, negative ones counted from the end and both clamped to [0, N], its length is the resolved end minus the resolved start (0 if that is negative), and it is the contiguous run starting at the resolved start bound |
| Cutter.NegativeStartCountsFromEnd | audio_labeling_project/audio_processor/cutter.py:19 | a negative start bound `i` slices as `i + N` |
| Cutter.CutAudioSegment | audio_labeling_project/audio_processor/cutter.py:16-22 | the written samples are exactly `audio[int(start*sr):int(end*sr)]`, written to the given path at the input sample rate |
| Cutter.FramesOrdered | audio_labeling_project/audio_processor/cutter.py:16-17 | for `0 <= start <= end`, the start frame is non-negative and not after the end frame |
| Cutter.CutContents | audio_labeling_project/audio_processor/cutter.py:16-19 | for ordered non-negative times, the cut has length `min(end_frame, N) - start_frame` and `cut[k] == audio[start_frame + k]`; it is empty once the start frame is at or past N |
| Cutter.CutDuration | audio_labeling_project/audio_processor/cutter.py:16-19 | the cut is shorter than the duration in frames plus one; if the end lies within the buffer, it is longer than the duration in frames minus one |
| Session.Init | audio_labeling_project/ui/main_window.py:52-69 | a new window has no buffer, no pixmap, no bounds, cursor 0, no playback, no open stream, stream id 0, gain 1.0, no annotations, no pending start, no press time, and the labelled set read from the log |
| Session.InitInv | audio_labeling_project/ui/main_window.py:52-64 | the new window satisfies the session invariant |
| Playback.StartPlayback | audio_labeling_project/ui/main_window.py:443-472 | without a buffer nothing changes; otherwise playback is on, a stream is open under the next stream id, the cursor ends inside the buffer (rewound to 0 if it was at or past the end, kept otherwise), and nothing else changes |
| Playback.StopPlayback | audio_labeling_project/ui/main_window.py:474-494 | playback is off and no stream is open; the stream id goes up by exactly one if a stream was open and is unchanged otherwise; the cursor becomes 0 exactly when a reset is asked for; nothing else changes |
| Playback.PlaybackFinished | audio_labeling_project/ui/main_window.py:517-522 | a callback with a different id, or one arriving when playback is off, changes nothing; otherwise playback ends with the cursor at 0 |
| Playback.AudioCallback | audio_labeling_project/ui/main_window.py:496-515 | the cursor either stays or grows by exactly `frames`. If `pos + frames <= N`, the block is `samples[pos..pos+frames) * gain` and the cursor advances. If the buffer ends inside the block, the remaining `N - pos` samples are scaled, the rest is silence, and the stream completes without advancing. Past the end, the block is all silence or the callback raises. Without a buffer it raises |
| Playback.SetPlaybackPosition | audio_labeling_project/ui/main_window.py:524-529 | when paused, the cursor takes the value unclamped; when playing with a buffer, playback restarts under a newer stream id at the value, or at 0 if the value is past the end; only the cursor, the playing flag, the stream flag and the stream id can change |
| Playback.TogglePlayback | audio_labeling_project/ui/main_window.py:434-441 | no buffer: no change; playing: exactly a stop that keeps the cursor; paused: exactly a start, so a new stream id, a cursor inside the buffer, and every other field kept |
| Playback.KeyPress | audio_labeling_project/ui/main_window.py:408-432 | Left/Right pause playback and move the cursor by one second's frames, clamped to [0, N-1], and do nothing without a buffer. Up/Down step the gain by 0.1, clamped to [0.0, 2.0]. Each key changes nothing else |
| Playback.GainStaysInRange | audio_labeling_project/ui/main_window.py:425-430 | a gain in [0.0, 2.0] stays in [0.0, 2.0] after any key |
| Loading.LoadAudio | audio_labeling_project/ui/main_window.py:323-372 | on a decode error, only the buffer is cleared; on an empty buffer, the buffer is cleared and the cursor is 0; otherwise the buffer becomes active, the cursor is 0, the saved annotations are restored, the spectrogram is shown, playback is stopped (the stream id moving on by one exactly when a stream was open), and gain, pending start, press time and labelled set are kept |
| Labelling.AddSelection | audio_labeling_project/ui/main_window.py:568-572 | one annotation is appended if and only if the two times differ by more than 0.1 s; it carries the two times in order and the chosen category; otherwise the list is unchanged |
| Labelling.MarkStart | audio_labeling_project/ui/main_window.py:558-562 | no buffer: no change; otherwise only the pending start changes, to the non-negative time whose frame is the cursor |
| Labelling.MarkEnd | audio_labeling_project/ui/main_window.py:564-576 | no buffer or no pending start: no change; otherwise the pending start and the cursor time go through the acceptance rule, the pending start is cleared, and nothing else changes |
| Labelling.ClearLabels | audio_labeling_project/ui/main_window.py:621-626 | no annotations and no pending start afterwards; everything else is kept |
| Labelling.XToTime | audio_labeling_project/ui/main_window.py:660-680 | the result is 0 without a buffer, without a pixmap, or for a zero width; with bounds it is never negative, and it is 0 at or left of the plot's left edge |
| Labelling.XToTimeInvertsTimeToX | audio_labeling_project/ui/main_window.py:667-680 | clicking at the x where a non-negative time is drawn gives that time back |
| Labelling.XToTimeMonotone | audio_labeling_project/ui/main_window.py:667-680 | a click further right never gives an earlier time |
| Labelling.XToTimeWithoutBounds | audio_labeling_project/ui/main_window.py:664-680 | without plot bounds the time is x times the duration over the pixmap width, unshifted and unclamped, so a click left of the pixmap gives a negative time |
| Labelling.XToTimeUnclampedOnTheRight | audio_labeling_project/ui/main_window.py:667-680 | a click right of the plot gives a time past the buffer's duration |
| Labelling.MousePress | audio_labeling_project/ui/main_window.py:636-641 | a left press records the time under the pointer; any other button changes nothing |
| Labelling.MouseRelease | audio_labeling_project/ui/main_window.py:643-658 | a left release after a press sends the press time and the release time through the same acceptance rule as marking; anything else changes nothing |
| Labelling.SaveLabelsAndCut | audio_labeling_project/ui/main_window.py:578-619 | no annotations: no change. No buffer: no change and a failure. Otherwise there is exactly one cut per annotation, in order. Cut i slices that annotation's interval to `<dir>/<category>/<base>_cut_<i>_<category>.wav`. The log gets the annotations and the cut paths, the file is marked labelled, and the annotations are emptied |
| Labelling.IndexSeparates | audio_labeling_project/ui/main_window.py:597 | different indices between a common prefix and tails that start with a non-digit give different strings |
| Labelling.CutFileNamesDistinct | audio_labeling_project/ui/main_window.py:596-598 | two cuts of one save get different file names |
| Labelling.CutFileNameStart | audio_labeling_project/ui/main_window.py:596-598 | a cut file name is absolute exactly when the base name is |
| Labelling.JoinUnderCategory | audio_labeling_project/ui/main_window.py:593-598 | a relative cut file name is joined as output dir, category, separator, file name |
| Labelling.FolderSeparates | audio_labeling_project/ui/main_window.py:593-598 | different file names stay different under any single-component category folders |
| Labelling.CutPathsDistinct | audio_labeling_project/ui/main_window.py:592-606 | two cuts of one save never get the same output path, whatever their categories |
| FileList.Items | audio_labeling_project/ui/main_window.py:740-750 | scanning the first n files yields at most n items; what the items are is stated by the three lemmas below |
| FileList.ItemsSound | audio_labeling_project/ui/main_window.py:740-750 | every listed item is a file the filter shows, with its original index and its labelled flag |
| FileList.ItemsOrdered | audio_labeling_project/ui/main_window.py:740-750 | items appear in strictly increasing index order |
| FileList.ItemsComplete | audio_labeling_project/ui/main_window.py:740-750 | every file the filter shows is listed |
| FileList.RefreshFileList | audio_labeling_project/ui/main_window.py:733-750 | exactly the files the filter admits, each once, in folder order, each with its original index and labelled flag |
| FileList.AllListsEverything | audio_labeling_project/ui/main_window.py:740-750 | under "All", item k is file k, for every file |
| FileList.FiltersPartition | audio_labeling_project/ui/main_window.py:741-745 | "Labeled" and "Unlabeled" together list as many items as "All" |
| Events.AddSelectionKeepsAccepted | audio_labeling_project/ui/main_window.py:568-572 | appending through the acceptance rule keeps every annotation longer than 0.1 s |
| Events.ApplyKeepsInv | audio_labeling_project/ui/main_window.py:408-626 | every handler keeps the session invariant |
| Events.RunKeepsInv | audio_labeling_project/ui/main_window.py:408-626 | along any trace: a stream is open exactly while playing; a running cursor stays within the buffer; the gain stays in [0.0, 2.0]; every annotation is longer than 0.1 s |
| Events.ReachableInv | audio_labeling_project/ui/main_window.py:52-64 | every state reachable from a new window satisfies the invariant |
| Events.ApplyNeverLowersStreamId | audio_labeling_project/ui/main_window.py:464-477 | no handler lowers the stream id |
| Events.StaleFinishedIgnored | audio_labeling_project/ui/main_window.py:517-519 | once the live stream id exceeds a captured id, a finished callback for that id is a no-op after any further events |
| Events.StopMakesStartedStreamStale | audio_labeling_project/ui/main_window.py:464-477 | after a start and then a stop, the started stream's finished callback is a no-op after any further events |
| Events.LiveFinishedStops | audio_labeling_project/ui/main_window.py:517-522 | the finished callback of the live stream stops playback and rewinds to 0 |
| Events.HootMarked | audio_labeling_project/ui/main_window.py:558-576 | 44100 frames at 44100 Hz, start marked at frame 0, end at frame 22050, category Hoot: the annotations become exactly `[(0.0, 0.5, Hoot)]` |
| Events.HootSaved | audio_labeling_project/ui/main_window.py:578-614 | saving that one annotation yields one cut of 22050 frames, one logged path, and no annotations left |

## Left out

- Qt widgets and UI plumbing are not modelled: layout, shortcuts, the 50 ms redraw timer, popups, status text, slider display, and the annotation and memory tables. They show state but never change it.
- The spectrogram renderer and the overlay drawing are not modelled. The renderer's pixmap width and bounds are inputs to `Loading.LoadAudio`. `Labelling.TimeToX` stands in for the overlays' forward map.
- Loading.LoadAudio: the non-empty case assumes the renderer returns a `(pixmap, bounds)` pair, as `load_audio` unpacks it (main_window.py:350-355). `generate_spectrogram_pixmap` as written returns a single `QPixmap` (spectrogram_generator.py:22-23, 50), whose unpacking would raise and send every load down the error path. `draw_playback_line` and `draw_annotations`, imported at main_window.py:30-34, are not defined in spectrogram_generator.py. The empty case follows the single-pixmap branch: the bare `QPixmap()` cannot be unpacked, the `except` at main_window.py:366-372 clears the buffer, and the cursor stays at the 0 it was just given.
- File I/O is not modelled: decoding with soundfile, `sf.write`, `os.makedirs`, `os.listdir`, `os.path.isdir`. The decoded buffer, the directory test and the listing are inputs. A cut write appears as the `Cutter.Cut` value handed to the writer.
- `load_audio`'s index handling and `load_next_audio` / `load_previous_audio` are not modelled: they only pick which file to decode.
- Labelling.SaveLabelsAndCut: takes the audio path and its extension-less base name as inputs instead of computing them with `os.path.basename` / `os.path.splitext`. The output directory is a parameter, not the hard-coded Windows path. A failing cut write, which would raise in the middle of the loop, is not modelled. Neither is a failing lookup of the current file (main_window.py:583-585). After an empty folder has been selected, `audio_files` is empty while the buffer and annotations remain, so that lookup raises `IndexError` before any cut; the model returns `Saved` there.
- `select_audio_folder` (main_window.py:296-314) is not modelled: it replaces the file list and loads the first file, but returns early on an empty folder while leaving the loaded buffer, the annotations and the current index in place.
- Persistence is not modelled: the JSON label log (`save_labels_for_audio`, `load_labels_data`, `remove_labeled_audio`), `delete_memory_entry` and `refresh_memory_table`. `SaveLabelsAndCut` returns the `LogEntry` it would hand over. A load receives its annotations as the input `saved`.
- Loading.LoadAudio: the loaded annotation list is the very list object held in the in-memory label log (main_window.py:356-360). `mark_end` and the mouse release append to it in place (main_window.py:572, 656), so marks made since the last load come back on a reload of the same file even if they were never saved, and `clear_labels` rebinds the list without undoing this. The model treats annotations as values: `saved` stands for that shared list as it stands at the load, not only for what was saved.
- Events.Admissible: the invariant that every annotation is longer than 0.1 s is proved only for traces whose loaded annotations already satisfy it. The log file is outside the model and could hold anything.
- Playback.KeyPress: buffers are never empty (`Samples.Buffer`), because the empty case of `Loading.LoadAudio` follows the single-pixmap branch of the renderer, where the load fails. A renderer that returned a pair for empty input would let an empty file load. Right would then set the cursor to `min(-1, ...) = -1` (main_window.py:420-422), and `mark_start` would record a start time (0.0, or -1/rate after Right) where the model has no buffer to mark (main_window.py:558-561). That case is not modelled.
- Labelling.MouseRelease: a release with no earlier press makes the source raise `AttributeError` before it touches the annotations. The model keeps the state unchanged and does not model the exception itself.
- Playback.AudioCallback: a raised exception is a `Fault` block with the state unchanged. What the device does with the stream afterwards is not modelled. The `status` print is left out.
- Threads are not modelled. The audio callback and the finished callback are events that may interleave with user events in any order, but each event runs atomically.
- Loading.LoadAudio: the load is modelled as one atomic step, but the decode loop calls `QApplication.processEvents()` (main_window.py:339). At that point the new rate and a not yet filled array are already in place (main_window.py:325, 327) while the cursor has not yet been reset (main_window.py:342). A queued Mark Start or Play then runs against the old cursor and the new rate and array, and a running stream's callback reads the partly filled array. These intermediate states are not modelled.
- Floating point is not modelled: times and gain are exact reals. Repeated 0.1 gain steps may land slightly differently in Python, but the clamp bounds hold either way. Samples are reals, not float32.
- Playback.StartPlayback: opening the output stream (`sd.OutputStream(...)` and `start()`, main_window.py:466-472) is assumed to succeed. In the source `is_playing` is set (:453) and the id is bumped (:464) before the stream is created. A constructor that raised would leave the window playing with no stream open, which breaks the `streamOpen == playing` part of `Session.Inv`.
- Paths.Lower: lowercases ASCII letters only, not the full Unicode `str.lower`.
- Paths.Join: follows `posixpath.join`, not the Windows rules the hard-coded paths suggest.
- `closeEvent`, the panel toggles and `check_if_labeled` are not modelled: they affect only display or the stream teardown at exit.

=== FILE: config.dfy ===
/** The fixed configuration of the labelling tool: the category names offered
    by the category selector, the accepted audio extensions and the policy
    constants hard-coded in the window. */
module Config {

  /** The categories listed under CATEGORIES. */
  datatype Category = Hoot | Climax | OtherChimp | NoChimp | HumanPresence | Drumming

  /** The text the category selector shows for a category; it is also the
      name of the output sub-directory and the tail of each cut's file name. */
  function Name(c: Category): (n: string)
    ensures |n| > 0
    ensures forall k :: 0 <= k < |n| ==> n[k] != '/'
  {
    match c
    case Hoot => "Hoot"
    case Climax => "Climax"
    case OtherChimp => "Other_chimp"
    case NoChimp => "No_chimp"
    case HumanPresence => "Human_presence"
    case Drumming => "Drumming"
  }

  /** AUDIO_EXTENSIONS. */
  const AudioExtensions: seq<string> := [".wav", ".mp3"]

  /** A selection is kept only if it is strictly longer than this many seconds. */
  const MinSelection: real := 0.1

  /** Gain bounds and step of the Up/Down keys. */
  const MinGain: real := 0.0
  const MaxGain: real := 2.0
  const GainStep: real := 0.1

  /** The gain a fresh window starts with. */
  const InitialGain: real := 1.0
}

=== FILE: cutter.dfy ===
/** audio_processor/cutter.py: turning a (start, end) pair of seconds into a
    frame slice of the buffer. The write itself (`os.makedirs`, `sf.write`)
    is represented by the Cut value handed to it. */
module Cutter {
  import opened Samples

  /** What cut_audio_segment hands to the writer. */
  datatype Cut = Cut(path: string, samples: seq<real>, rate: Hz)

  /** Python's int() on a float: rounds toward zero. */
  function Trunc(x: real): (n: int)
    ensures x >= 0.0 ==> 0 <= n && n as real <= x < n as real + 1.0
    ensures x < 0.0 ==> n <= 0 && x <= n as real < x + 1.0
  {
    if x >= 0.0 then x.Floor else -((-x).Floor)
  }

  /** Truncation never reverses the order of two times. */
  lemma TruncMonotone(x: real, y: real)
    requires x <= y
    ensures Trunc(x) <= Trunc(y)
  {
  }

  /** How Python resolves a slice bound `i` against a sequence of length
      `n`: negative bounds count from the end, then the bound is clamped to
      [0, n]. */
  function SliceBound(i: int, n: nat): (k: nat)
    ensures k <= n
    ensures 0 <= i <= n ==> k == i
    ensures i > n ==> k == n
    ensures -(n as int) <= i < 0 ==> k == i + n
    ensures i < -(n as int) ==> k == 0
  {
    if i < 0 then (if i + n < 0 then 0 else i + n) else if i > n then n else i
  }

  /** The Python slice `s[i:j]`. */
  function PySlice<T>(s: seq<T>, i: int, j: int): (r: seq<T>)
    ensures |r| <= |s|
    ensures 0 <= i <= j <= |s| ==> r == s[i..j]
    ensures 0 <= i <= |s| < j ==> r == s[i..]
    ensures 0 <= j <= i || |s| <= i ==> r == []
    ensures SliceBound(i, |s|) + |r| <= |s|
    ensures |r| == if SliceBound(i, |s|) < SliceBound(j, |s|)
                   then SliceBound(j, |s|) - SliceBound(i, |s|) else 0
    ensures forall k :: 0 <= k < |r| ==> r[k] == s[SliceBound(i, |s|) + k]
  {
    var a := SliceBound(i, |s|);
    var b := SliceBound(j, |s|);
    if a < b then s[a..b] else []
  }

  /** A negative start bound counts back from the end of the sequence. */
  lemma NegativeStartCountsFromEnd<T>(s: seq<T>, i: int, j: int)
    requires -|s| <= i < 0
    ensures PySlice(s, i, j) == PySlice(s, i + |s|, j)
  {
  }

  /** `int(t * samplerate)`: the frame a time in seconds falls on. */
  function FrameOf(t: real, rate: Hz): int {
    Trunc(t * rate as real)
  }

  /** cut_audio_segment without the write: the frames [start, end) of the
      buffer, the output path and the rate the writer is given. */
  function CutAudioSegment(audio: seq<real>, rate: Hz, startTime: real, endTime: real,
                           outputPath: string): (c: Cut)
    ensures c.path == outputPath
    ensures c.rate == rate
    ensures c.samples == PySlice(audio, FrameOf(startTime, rate), FrameOf(endTime, rate))
  {
    Cut(outputPath, PySlice(audio, FrameOf(startTime, rate), FrameOf(endTime, rate)), rate)
  }

  /** For non-negative times the start frame never lies after the end frame. */
  lemma FramesOrdered(startTime: real, endTime: real, rate: Hz)
    requires 0.0 <= startTime <= endTime
    ensures 0 <= FrameOf(startTime, rate) <= FrameOf(endTime, rate)
  {
    assert startTime * rate as real <= endTime * rate as real;
    TruncMonotone(startTime * rate as real, endTime * rate as real);
  }

  /** A cut of an ordered, non-negative interval is the run of buffer frames
      from the start frame up to the end frame, the end clamped to the
      buffer's length; it is empty once the start frame is past the end. */
  lemma CutContents(audio: seq<real>, rate: Hz, startTime: real, endTime: real, path: string)
    requires 0.0 <= startTime <= endTime
    ensures var c := CutAudioSegment(audio, rate, startTime, endTime, path);
            var s := FrameOf(startTime, rate);
            var e := FrameOf(endTime, rate);
            && (s >= |audio| ==> c.samples == [])
            && (s < |audio| ==>
                  && |c.samples| == (if e <= |audio| then e else |audio|) - s
                  && forall k :: 0 <= k < |c.samples| ==> c.samples[k] == audio[s + k])
  {
    FramesOrdered(startTime, endTime, rate);
  }

  /** The cut holds the interval's duration in frames, give or take the one
      frame lost or gained to truncation; fewer only where the buffer ends. */
  lemma CutDuration(audio: seq<real>, rate: Hz, startTime: real, endTime: real, path: string)
    requires 0.0 <= startTime <= endTime
    ensures var c := CutAudioSegment(audio, rate, startTime, endTime, path);
            && |c.samples| as real < (endTime - startTime) * rate as real + 1.0
            && (endTime * rate as real <= |audio| as real ==>
                  |c.samples| as real > (endTime - startTime) * rate as real - 1.0)
  {
    FramesOrdered(startTime, endTime, rate);
    var s := FrameOf(startTime, rate);
    var e := FrameOf(endTime, rate);
    assert (endTime - startTime) * rate as real == endTime * rate as real - startTime * rate as real;
    CutContents(audio, rate, startTime, endTime, path);
    if endTime * rate as real <= |audio| as real {
      assert e <= |audio|;
    }
  }
}

=== FILE: events.dfy ===
/** The window as one state machine: every handler as an event, a trace as
    a sequence of events, and what holds along any trace — the session
    invariant and the stream-id guard against stale finished callbacks.
    The audio callback and the finished callback are events like the
    others, so any interleaving with the user's actions is a trace. */
module Events {
  import opened Options
  import opened Config
  import opened Samples
  import opened Session
  import opened Playback
  import opened Labelling
  import opened Loading

  datatype Event =
    | Load(decoded: Option<Audio>, saved: seq<Annotation>, pixmapWidth: nat, bounds: Option<Bounds>)
    | MarkStartPressed
    | MarkEndPressed(category: Category)
    | ClearPressed
    | Press(button: MouseButton, x: real)
    | Release(button: MouseButton, x: real, category: Category)
    | KeyPressed(key: Key)
    | PlayPausePressed
    | StopPressed
    | SliderMoved(value: nat)
    | BlockRequested(frames: nat)
    | StreamFinished(id: nat)
    | SavePressed(audioPath: string, baseName: string, outputDir: string)

  function Apply(s: State, e: Event): State {
    match e
    case Load(decoded, saved, w, b) => LoadAudio(s, decoded, saved, w, b)
    case MarkStartPressed => MarkStart(s)
    case MarkEndPressed(c) => MarkEnd(s, c)
    case ClearPressed => ClearLabels(s)
    case Press(button, x) => MousePress(s, button, x)
    case Release(button, x, c) => MouseRelease(s, button, x, c)
    case KeyPressed(key) => KeyPress(s, key)
    case PlayPausePressed => TogglePlayback(s)
    case StopPressed => StopPlayback(s, true)
    case SliderMoved(v) => SetPlaybackPosition(s, v)
    case BlockRequested(frames) => AudioCallback(s, frames).next
    case StreamFinished(id) => PlaybackFinished(s, id)
    case SavePressed(path, base, dir) => SaveLabelsAndCut(s, path, base, dir).next
  }

  function Run(s: State, events: seq<Event>): State
    decreases |events|
  {
    if events == [] then s else Run(Apply(s, events[0]), events[1..])
  }

  /** Annotations read back from the label log are taken to satisfy the
      acceptance rule, as every annotation the window itself stores does. */
  predicate Admissible(e: Event) {
    e.Load? ==> forall i :: 0 <= i < |e.saved| ==> Accepted(e.saved[i])
  }

  lemma AddSelectionKeepsAccepted(annotations: seq<Annotation>, t1: real, t2: real, c: Category)
    requires forall i :: 0 <= i < |annotations| ==> Accepted(annotations[i])
    ensures var r := AddSelection(annotations, t1, t2, c);
            forall i :: 0 <= i < |r| ==> Accepted(r[i])
  {
  }

  /** Every handler keeps the session invariant. */
  lemma ApplyKeepsInv(s: State, e: Event)
    requires Inv(s) && Admissible(e)
    ensures Inv(Apply(s, e))
  {
  }

  /** Every state reachable from an invariant state keeps the invariant: a
      stream is open exactly while playing, the cursor of a running playback
      stays within the buffer, the gain within [0.0, 2.0], and every stored
      annotation is longer than the minimum selection. */
  lemma {:induction false} RunKeepsInv(s: State, events: seq<Event>)
    requires Inv(s)
    requires forall i :: 0 <= i < |events| ==> Admissible(events[i])
    ensures Inv(Run(s, events))
    decreases |events|
  {
    if events != [] {
      ApplyKeepsInv(s, events[0]);
      RunKeepsInv(Apply(s, events[0]), events[1..]);
    }
  }

  /** In particular, every state the window reaches from its start does. */
  lemma ReachableInv(labeled: set<string>, events: seq<Event>)
    requires forall i :: 0 <= i < |events| ==> Admissible(events[i])
    ensures Inv(Run(Init(labeled), events))
  {
    InitInv(labeled);
    RunKeepsInv(Init(labeled), events);
  }

  /** No handler moves the stream id backwards. */
  lemma ApplyNeverLowersStreamId(s: State, e: Event)
    ensures Apply(s, e).streamId >= s.streamId
  {
  }

  /** A finished callback captured under an id older than the current one
      stays a no-op after any further events: the id never comes back. */
  lemma {:induction false} StaleFinishedIgnored(s: State, events: seq<Event>, captured: nat)
    requires captured < s.streamId
    ensures captured < Run(s, events).streamId
    ensures PlaybackFinished(Run(s, events), captured) == Run(s, events)
    decreases |events|
  {
    if events != [] {
      ApplyNeverLowersStreamId(s, events[0]);
      StaleFinishedIgnored(Apply(s, events[0]), events[1..], captured);
    }
  }

  /** Starting a stream and then stopping it makes the id the started
      stream's finished callback captured stale for good. */
  lemma StopMakesStartedStreamStale(s: State, reset: bool, events: seq<Event>)
    requires s.audio.Some?
    ensures var started := StartPlayback(s);
            var later := Run(StopPlayback(started, reset), events);
            PlaybackFinished(later, started.streamId) == later
  {
    var started := StartPlayback(s);
    StaleFinishedIgnored(StopPlayback(started, reset), events, started.streamId);
  }

  /** A finished callback for the live stream ends playback and rewinds. */
  lemma LiveFinishedStops(s: State)
    requires s.audio.Some?
    ensures var started := StartPlayback(s);
            var r := PlaybackFinished(started, started.streamId);
            !r.playing && !r.streamOpen && r.position == 0
  {
  }

  /** One second at 44.1 kHz: start marked at frame 0, end at frame 22050,
      category Hoot, gives exactly the annotation (0.0, 0.5, Hoot). */
  lemma HootMarked(s: State)
    requires s.audio.Some? && s.audio.value.rate == 44100 && Length(s) == 44100
    requires s.position == 0 && !s.playing && s.annotations == []
    ensures Run(s, [MarkStartPressed, SliderMoved(22050), MarkEndPressed(Hoot)]).annotations
            == [Annotation(0.0, 0.5, Hoot)]
  {
  }

  /** Saving that one annotation writes one cut of 22050 frames, logs its
      path, and empties the annotations. */
  lemma HootSaved(s: State, path: string, base: string, dir: string)
    requires s.audio.Some? && s.audio.value.rate == 44100 && Length(s) == 44100
    requires s.annotations == [Annotation(0.0, 0.5, Hoot)]
    ensures var saved := SaveLabelsAndCut(s, path, base, dir);
            && saved.next.annotations == []
            && saved.outcome.Saved?
            && |saved.outcome.cuts| == 1
            && |saved.outcome.cuts[0].samples| == 22050
            && saved.outcome.entry.cutPaths == [CutPath(dir, base, 0, Hoot)]
  {
  }
}

=== FILE: file_list.dfy ===
/** The filter of refresh_file_list: which of the folder's audio files the
    side list shows under "All", "Unlabeled" or "Labeled", each item keeping
    the file's index in the folder list and whether it is labelled. */
module FileList {

  datatype FileFilter = All | Unlabeled | Labeled

  /** One list entry: the index into `audio_files` stored under UserRole,
      and whether it is drawn green (already labelled). */
  datatype ListItem = ListItem(index: nat, labeled: bool)

  predicate Shown(path: string, labeled: set<string>, filter: FileFilter) {
    match filter
    case All => true
    case Unlabeled => path !in labeled
    case Labeled => path in labeled
  }

  /** The items for the first `n` files, in folder order. */
  function Items(files: seq<string>, labeled: set<string>, filter: FileFilter, n: nat)
    : (r: seq<ListItem>)
    requires n <= |files|
    ensures |r| <= n
  {
    if n == 0 then []
    else
      var before := Items(files, labeled, filter, n - 1);
      var f := files[n - 1];
      if Shown(f, labeled, filter) then before + [ListItem(n - 1, f in labeled)] else before
  }

  /** Each of `r` stands for one of the first `n` files, one the filter
      shows, with its labelled flag. */
  predicate Sound(files: seq<string>, labeled: set<string>, filter: FileFilter, n: nat,
                  r: seq<ListItem>)
    requires n <= |files|
  {
    forall k :: 0 <= k < |r| ==>
      && r[k].index < n
      && Shown(files[r[k].index], labeled, filter)
      && r[k].labeled == (files[r[k].index] in labeled)
  }

  /** Strictly increasing indices. */
  predicate Ordered(r: seq<ListItem>) {
    forall k, m :: 0 <= k < m < |r| ==> r[k].index < r[m].index
  }

  /** Every item stands for a file the filter shows, with its labelled flag. */
  lemma {:induction false} ItemsSound(files: seq<string>, labeled: set<string>, filter: FileFilter,
                                      n: nat)
    requires n <= |files|
    ensures Sound(files, labeled, filter, n, Items(files, labeled, filter, n))
  {
    if n > 0 {
      ItemsSound(files, labeled, filter, n - 1);
      var before := Items(files, labeled, filter, n - 1);
      assert Sound(files, labeled, filter, n, before);
    }
  }

  /** Items appear in folder order, so no file is listed twice. */
  lemma {:induction false} ItemsOrdered(files: seq<string>, labeled: set<string>,
                                        filter: FileFilter, n: nat)
    requires n <= |files|
    ensures Ordered(Items(files, labeled, filter, n))
  {
    if n > 0 {
      ItemsOrdered(files, labeled, filter, n - 1);
      ItemsSound(files, labeled, filter, n - 1);
    }
  }

  /** Every file the filter shows is listed. */
  lemma {:induction false} ItemsComplete(files: seq<string>, labeled: set<string>,
                                         filter: FileFilter, n: nat)
    requires n <= |files|
    ensures forall i :: 0 <= i < n && Shown(files[i], labeled, filter) ==>
              ListItem(i, files[i] in labeled) in Items(files, labeled, filter, n)
  {
    if n > 0 {
      ItemsComplete(files, labeled, filter, n - 1);
    }
  }

  /** refresh_file_list: exactly the files the filter admits, each once, in
      folder order, each carrying its original index. */
  function RefreshFileList(files: seq<string>, labeled: set<string>, filter: FileFilter)
    : (r: seq<ListItem>)
    ensures |r| <= |files|
    ensures forall k :: 0 <= k < |r| ==>
              && r[k].index < |files|
              && Shown(files[r[k].index], labeled, filter)
              && r[k].labeled == (files[r[k].index] in labeled)
    ensures forall k, m :: 0 <= k < m < |r| ==> r[k].index < r[m].index
    ensures forall i :: 0 <= i < |files| && Shown(files[i], labeled, filter) ==>
              ListItem(i, files[i] in labeled) in r
  {
    ItemsSound(files, labeled, filter, |files|);
    ItemsOrdered(files, labeled, filter, |files|);
    ItemsComplete(files, labeled, filter, |files|);
    Items(files, labeled, filter, |files|)
  }

  /** "All" lists every file, the item at position i being file i. */
  lemma {:induction false} AllListsEverything(files: seq<string>, labeled: set<string>, n: nat)
    requires n <= |files|
    ensures |Items(files, labeled, All, n)| == n
    ensures forall k :: 0 <= k < n ==> Items(files, labeled, All, n)[k].index == k
  {
    if n > 0 {
      AllListsEverything(files, labeled, n - 1);
    }
  }

  /** "Labeled" and "Unlabeled" split the files between them: together they
      list as many items as "All". */
  lemma {:induction false} FiltersPartition(files: seq<string>, labeled: set<string>, n: nat)
    requires n <= |files|
    ensures |Items(files, labeled, Labeled, n)| + |Items(files, labeled, Unlabeled, n)|
            == |Items(files, labeled, All, n)|
  {
    if n > 0 {
      FiltersPartition(files, labeled, n - 1);
    }
  }
}

=== FILE: file_manager.dfy ===
/** The folder scan of utils/file_manager.py: which entries of a directory
    listing are taken as audio files. The listing itself (`os.listdir`) and
    the directory test (`os.path.isdir`) are inputs. */
module FileManager {
  import opened Paths
  import opened Config

  /** An entry is an audio file when its lowercased name ends with one of
      the extensions; only the entry name is lowercased, the extensions are
      compared as given. */
  predicate Matches(f: string, extensions: seq<string>) {
    exists i :: 0 <= i < |extensions| && EndsWith(Lower(f), extensions[i])
  }

  /** The joined paths of the matching entries, in listing order. */
  function Kept(folder: string, listing: seq<string>, extensions: seq<string>): (r: seq<string>)
    ensures |r| <= |listing|
    ensures forall p :: p in r ==>
              exists f :: f in listing && Matches(f, extensions) && p == Join(folder, f)
    ensures forall f :: f in listing && Matches(f, extensions) ==> Join(folder, f) in r
  {
    if listing == [] then []
    else
      var rest := Kept(folder, listing[1..], extensions);
      assert forall f :: f in listing[1..] ==> f in listing;
      if Matches(listing[0], extensions) then [Join(folder, listing[0])] + rest else rest
  }

  /** get_audio_files_in_folder: nothing when the path is not a directory,
      otherwise the matching entries joined onto the folder. */
  function AudioFilesInFolder(isDir: bool, folder: string, listing: seq<string>,
                              extensions: seq<string>): (r: seq<string>)
    ensures !isDir ==> r == []
    ensures |r| <= |listing|
    ensures forall p :: p in r ==>
              exists f :: f in listing && Matches(f, extensions) && p == Join(folder, f)
    ensures isDir ==> forall f :: f in listing && Matches(f, extensions) ==> Join(folder, f) in r
    ensures isDir ==> r == Kept(folder, listing, extensions)
  {
    if isDir then Kept(folder, listing, extensions) else []
  }

  /** Listing order is kept: scanning two consecutive runs of a listing gives
      the scan of the first run followed by the scan of the second. Together
      with KeptSingle this pins the result down entry by entry. */
  lemma {:induction false} KeptAppend(folder: string, l1: seq<string>, l2: seq<string>,
                                      extensions: seq<string>)
    ensures Kept(folder, l1 + l2, extensions)
            == Kept(folder, l1, extensions) + Kept(folder, l2, extensions)
  {
    if l1 == [] {
      assert l1 + l2 == l2;
    } else {
      assert (l1 + l2)[1..] == l1[1..] + l2;
      KeptAppend(folder, l1[1..], l2, extensions);
    }
  }

  /** A single entry is kept, joined onto the folder, exactly when it matches. */
  lemma KeptSingle(folder: string, f: string, extensions: seq<string>)
    ensures Matches(f, extensions) ==> Kept(folder, [f], extensions) == [Join(folder, f)]
    ensures !Matches(f, extensions) ==> Kept(folder, [f], extensions) == []
  {
  }

  /** Matching ignores the case of the entry name: "CALL.WAV" and "call.wav"
      are treated alike. */
  lemma MatchIgnoresNameCase(f: string, extensions: seq<string>)
    ensures Matches(f, extensions) <==> Matches(Lower(f), extensions)
  {
    LowerIdempotent(f);
  }

  /** ... but the extensions are not lowercased: an extension holding an
      upper-case letter matches no entry at all. */
  lemma UpperCaseExtensionNeverMatches(f: string, ext: string)
    requires exists k :: 0 <= k < |ext| && IsUpper(ext[k])
    ensures !Matches(f, [ext])
  {
  }

  /** With the configured extensions, an upper-case ".WAV" entry is picked up. */
  lemma UpperCaseNameMatches()
    ensures Matches("CALL.WAV", AudioExtensions)
  {
    var low := Lower("CALL.WAV");
    assert low == "call.wav";
    assert EndsWith(low, AudioExtensions[0]);
  }
}

=== FILE: labelling.dfy ===
/** Annotation handling of the main window: marking start and end from the
    cursor, selecting with the mouse on the spectrogram, clearing, and the
    save-and-cut bookkeeping. */
module Labelling {
  import opened Options
  import opened Config
  import opened Samples
  import opened Paths
  import opened Cutter
  import opened Session

  function Min(a: real, b: real): real {
    if a <= b then a else b
  }

  function Max(a: real, b: real): real {
    if a <= b then b else a
  }

  function Abs(x: real): real {
    if x < 0.0 then -x else x
  }

  /** The one acceptance rule shared by keyboard marking and mouse selection:
      order the two times, and append `(start, end, category)` only when the
      interval is longer than the minimum selection. */
  function AddSelection(annotations: seq<Annotation>, t1: real, t2: real, category: Category)
    : (r: seq<Annotation>)
    ensures |r| == |annotations| + 1 <==> Abs(t1 - t2) > MinSelection
    ensures |r| != |annotations| + 1 ==> r == annotations
    ensures |r| == |annotations| + 1 ==>
              && r[..|annotations|] == annotations
              && r[|annotations|].category == category
              && r[|annotations|].start <= r[|annotations|].end
              && ((r[|annotations|].start == t1 && r[|annotations|].end == t2)
                  || (r[|annotations|].start == t2 && r[|annotations|].end == t1))
              && Accepted(r[|annotations|])
  {
    var start := Min(t1, t2);
    var end := Max(t1, t2);
    if end - start > MinSelection then annotations + [Annotation(start, end, category)]
    else annotations
  }

  /** The time in seconds of the current cursor. */
  function CursorTime(s: State): real
    requires s.audio.Some?
  {
    s.position as real / s.audio.value.rate as real
  }

  /** mark_start: nothing without a buffer; otherwise the pending start is
      the cursor's time, i.e. the time whose frame is the cursor. */
  function MarkStart(s: State): (r: State)
    ensures s.audio.None? ==> r == s
    ensures s.audio.Some? ==>
              && r == s.(pendingStart := r.pendingStart)
              && r.pendingStart.Some?
              && r.pendingStart.value >= 0.0
              && r.pendingStart.value * s.audio.value.rate as real == s.position as real
  {
    if s.audio.None? then s else s.(pendingStart := Some(CursorTime(s)))
  }

  /** mark_end: nothing without a buffer or without a pending start;
      otherwise the pending start and the cursor's time go through the
      acceptance rule, and the pending start is cleared either way. */
  function MarkEnd(s: State, category: Category): (r: State)
    ensures s.audio.None? || s.pendingStart.None? ==> r == s
    ensures s.audio.Some? && s.pendingStart.Some? ==>
              && r.pendingStart.None?
              && r == s.(pendingStart := None, annotations := r.annotations)
              && r.annotations
                 == AddSelection(s.annotations, s.pendingStart.value, CursorTime(s), category)
  {
    if s.audio.None? || s.pendingStart.None? then s
    else
      s.(annotations := AddSelection(s.annotations, s.pendingStart.value, CursorTime(s), category),
         pendingStart := None)
  }

  /** clear_labels: no annotations and no pending start, whatever the state. */
  function ClearLabels(s: State): (r: State)
    ensures r.annotations == [] && r.pendingStart.None?
    ensures r == s.(annotations := [], pendingStart := None)
  {
    s.(annotations := [], pendingStart := None)
  }

  /** The buffer's duration in seconds. */
  function Duration(s: State): real
    requires s.audio.Some?
  {
    Length(s) as real / s.audio.value.rate as real
  }

  /** x_to_time: 0 without a buffer or a displayed pixmap. With known bounds
      the click is measured from the plot's left edge (never below 0) against
      the plot width; without them against the whole pixmap width, unshifted.
      A zero width gives 0. */
  function XToTime(s: State, x: real): (t: real)
    ensures s.audio.None? || s.pixmapWidth.None? ==> t == 0.0
    ensures s.bounds.Some? ==> t >= 0.0
    ensures s.bounds.Some? && x <= s.bounds.value.left ==> t == 0.0
    ensures s.bounds.Some? && s.bounds.value.width == 0 ==> t == 0.0
    ensures s.bounds.None? && s.pixmapWidth.Some? && s.pixmapWidth.value == 0 ==> t == 0.0
  {
    if s.audio.None? || s.pixmapWidth.None? then 0.0
    else
      var offset := if s.bounds.Some? then Max(0.0, x - s.bounds.value.left) else x;
      var width := if s.bounds.Some? then s.bounds.value.width else s.pixmapWidth.value;
      if width == 0 then 0.0
      else
        var timePerPixel := Duration(s) / width as real;
        offset * timePerPixel
  }

  /** The forward map the overlays use: a time's x-coordinate inside the plot. */
  function TimeToX(s: State, t: real): real
    requires s.audio.Some? && s.bounds.Some?
  {
    s.bounds.value.left + t / Duration(s) * s.bounds.value.width as real
  }

  /** Clicking where a time is drawn gives that time back. */
  lemma XToTimeInvertsTimeToX(s: State, t: real)
    requires s.audio.Some? && s.pixmapWidth.Some? && s.bounds.Some?
    requires s.bounds.value.width > 0 && t >= 0.0
    ensures XToTime(s, TimeToX(s, t)) == t
  {
  }

  /** A click further right never maps to an earlier time. */
  lemma XToTimeMonotone(s: State, x1: real, x2: real)
    requires x1 <= x2
    ensures XToTime(s, x1) <= XToTime(s, x2)
  {
    if s.audio.Some? && s.pixmapWidth.Some? {
      var width := if s.bounds.Some? then s.bounds.value.width else s.pixmapWidth.value;
      if width > 0 {
        var k := Duration(s) / width as real;
        assert k >= 0.0;
        var o1 := if s.bounds.Some? then Max(0.0, x1 - s.bounds.value.left) else x1;
        var o2 := if s.bounds.Some? then Max(0.0, x2 - s.bounds.value.left) else x2;
        assert o1 <= o2;
        assert o1 * k <= o2 * k;
      }
    }
  }

  /** The mapping clamps only on the left: a click beyond the plot's right
      edge maps past the end of the buffer. */
  lemma XToTimeUnclampedOnTheRight(s: State, x: real)
    requires s.audio.Some? && s.pixmapWidth.Some? && s.bounds.Some?
    requires s.bounds.value.width > 0
    requires x > s.bounds.value.left + s.bounds.value.width as real
    ensures XToTime(s, x) > Duration(s)
  {
    var d := Duration(s);
    var w := s.bounds.value.width as real;
    assert d > 0.0;
    var o := x - s.bounds.value.left;
    assert o > w;
    assert o * (d / w) > w * (d / w);
    assert w * (d / w) == d;
  }

  /** Without plot bounds the click is scaled against the whole pixmap width
      as it is, neither shifted nor clamped: the time is x times the duration
      over that width, so a click left of the pixmap gives a negative time. */
  lemma XToTimeWithoutBounds(s: State, x: real)
    requires s.audio.Some? && s.pixmapWidth.Some? && s.bounds.None?
    requires s.pixmapWidth.value > 0
    ensures XToTime(s, x) * s.pixmapWidth.value as real == x * Duration(s)
    ensures x < 0.0 ==> XToTime(s, x) < 0.0
  {
    var d := Duration(s);
    var w := s.pixmapWidth.value as real;
    assert d > 0.0;
    assert XToTime(s, x) == x * (d / w);
    assert x * (d / w) * w == x * d;
  }

  datatype MouseButton = LeftButton | OtherButton

  /** spectrogram_mouse_press: a left press records the time under the pointer. */
  function MousePress(s: State, button: MouseButton, x: real): (r: State)
    ensures button != LeftButton ==> r == s
    ensures button == LeftButton ==> r == s.(selectionStart := Some(XToTime(s, x)))
  {
    if button == LeftButton then s.(selectionStart := Some(XToTime(s, x))) else s
  }

  /** spectrogram_mouse_release: a left release sends the recorded press time
      and the time under the pointer through the acceptance rule. The press
      time is kept, not consumed. Without any earlier press the handler fails
      on the missing attribute before touching the annotations. */
  function MouseRelease(s: State, button: MouseButton, x: real, category: Category): (r: State)
    ensures button != LeftButton || s.selectionStart.None? ==> r == s
    ensures button == LeftButton && s.selectionStart.Some? ==>
              r == s.(annotations := AddSelection(s.annotations, s.selectionStart.value,
                                                  XToTime(s, x), category))
  {
    if button != LeftButton then s
    else match s.selectionStart
      case None => s
      case Some(start) =>
        s.(annotations := AddSelection(s.annotations, start, XToTime(s, x), category))
  }

  /** The file name of the i-th cut: the base name, "_cut_", the index in
      decimal, "_", the category name and the ".wav" extension. */
  function CutFileName(baseName: string, i: nat, c: Category): string {
    baseName + "_cut_" + NatToString(i) + "_" + Name(c) + ".wav"
  }

  /** The cut file name joined under the category's folder, which is itself
      joined under the output directory. */
  function CutPath(outputDir: string, baseName: string, i: nat, c: Category): string {
    Join(Join(outputDir, Name(c)), CutFileName(baseName, i, c))
  }

  /** What save_labels_for_audio is handed for the persistent log. */
  datatype LogEntry = LogEntry(audioPath: string, annotations: seq<Annotation>,
                               cutPaths: seq<string>)

  datatype SaveOutcome =
    | NothingToSave
    | SaveFailed
    | Saved(cuts: seq<Cut>, entry: LogEntry)

  datatype SaveStep = SaveStep(next: State, outcome: SaveOutcome)

  /** save_labels_and_cut for the audio file `audioPath` whose name without
      extension is `baseName`: with no annotations, nothing happens. Without
      a buffer the first cut raises and nothing changes. Otherwise the i-th
      annotation becomes the i-th cut, written under the category's folder;
      the annotations and cut paths go to the log, the file is marked as
      labelled and the annotations are emptied. */
  function SaveLabelsAndCut(s: State, audioPath: string, baseName: string, outputDir: string)
    : (r: SaveStep)
    ensures s.annotations == [] ==> r == SaveStep(s, NothingToSave)
    ensures s.annotations != [] && s.audio.None? ==> r == SaveStep(s, SaveFailed)
    ensures s.annotations != [] && s.audio.Some? ==>
              && r.next == s.(annotations := [], labeled := s.labeled + {audioPath})
              && r.outcome.Saved?
              && |r.outcome.cuts| == |s.annotations|
              && r.outcome.entry.audioPath == audioPath
              && r.outcome.entry.annotations == s.annotations
              && |r.outcome.entry.cutPaths| == |s.annotations|
              && forall i :: 0 <= i < |s.annotations| ==>
                   var a := s.annotations[i];
                   && r.outcome.entry.cutPaths[i] == r.outcome.cuts[i].path
                   && r.outcome.cuts[i]
                      == CutAudioSegment(s.audio.value.samples, s.audio.value.rate, a.start, a.end,
                                         CutPath(outputDir, baseName, i, a.category))
  {
    if s.annotations == [] then SaveStep(s, NothingToSave)
    else if s.audio.None? then SaveStep(s, SaveFailed)
    else
      var buf := s.audio.value;
      var anns := s.annotations;
      var cuts := seq(|anns|, i requires 0 <= i < |anns| =>
                    CutAudioSegment(buf.samples, buf.rate, anns[i].start, anns[i].end,
                                    CutPath(outputDir, baseName, i, anns[i].category)));
      var paths := seq(|cuts|, i requires 0 <= i < |cuts| => cuts[i].path);
      SaveStep(s.(annotations := [], labeled := s.labeled + {audioPath}),
               Saved(cuts, LogEntry(audioPath, anns, paths)))
  }

  /** Different indices printed between a common prefix and tails that
      start with a non-digit give different strings. */
  lemma IndexSeparates(prefix: string, i: nat, j: nat, ti: string, tj: string)
    requires i != j
    requires |ti| > 0 && !IsDigit(ti[0]) && |tj| > 0 && !IsDigit(tj[0])
    ensures prefix + NatToString(i) + ti != prefix + NatToString(j) + tj
  {
    var si := NatToString(i);
    var sj := NatToString(j);
    var fi := prefix + si + ti;
    var fj := prefix + sj + tj;
    if fi == fj {
      assert fi[|prefix|..] == si + ti;
      assert fj[|prefix|..] == sj + tj;
      SplitAtFirst(si, ti, sj, tj, IsDigit);
      NatToStringInjective(i, j);
    }
  }

  /** The index in a cut's file name tells two cuts of one save apart,
      whatever their categories. */
  lemma CutFileNamesDistinct(baseName: string, i: nat, j: nat, ci: Category, cj: Category)
    requires i != j
    ensures CutFileName(baseName, i, ci) != CutFileName(baseName, j, cj)
  {
    var prefix := baseName + "_cut_";
    var ti := "_" + Name(ci) + ".wav";
    var tj := "_" + Name(cj) + ".wav";
    assert CutFileName(baseName, i, ci) == prefix + NatToString(i) + ti;
    assert CutFileName(baseName, j, cj) == prefix + NatToString(j) + tj;
    IndexSeparates(prefix, i, j, ti, tj);
  }

  /** Joining a file name under a category folder: unless the file name is
      absolute, the path is the folder, the category, a separator and the
      file name. */
  lemma JoinUnderCategory(outputDir: string, c: Category, f: string)
    requires |f| > 0 && f[0] != '/'
    ensures Join(Join(outputDir, Name(c)), f) == Lead(outputDir) + (Name(c) + ("/" + f))
  {
    var n := Name(c);
    var d := Join(outputDir, n);
    assert d == Lead(outputDir) + n;
    assert d[|d| - 1] == n[|n| - 1];
  }

  /** A cut's file name is absolute exactly when the base name is. */
  lemma CutFileNameStart(baseName: string, i: nat, c: Category)
    ensures var f := CutFileName(baseName, i, c);
            |f| > 0 && (f[0] == '/' <==> |baseName| > 0 && baseName[0] == '/')
  {
  }

  /** Names without a separator, each followed by a separator, can only
      agree when the names agree. */
  lemma FolderSeparates(lead: string, n1: string, n2: string, f1: string, f2: string)
    requires forall k :: 0 <= k < |n1| ==> n1[k] != '/'
    requires forall k :: 0 <= k < |n2| ==> n2[k] != '/'
    requires f1 != f2
    ensures lead + (n1 + ("/" + f1)) != lead + (n2 + ("/" + f2))
  {
    var p1 := lead + (n1 + ("/" + f1));
    var p2 := lead + (n2 + ("/" + f2));
    assert ("/" + f1)[1..] == f1 && ("/" + f2)[1..] == f2;
    if p1 == p2 {
      assert p1[|lead|..] == n1 + ("/" + f1);
      assert p2[|lead|..] == n2 + ("/" + f2);
      SplitAtFirst(n1, "/" + f1, n2, "/" + f2, ch => ch != '/');
    }
  }

  /** Two different annotations of one save never write to the same file. */
  lemma CutPathsDistinct(outputDir: string, baseName: string, i: nat, j: nat,
                         ci: Category, cj: Category)
    requires i != j
    ensures CutPath(outputDir, baseName, i, ci) != CutPath(outputDir, baseName, j, cj)
  {
    var fi := CutFileName(baseName, i, ci);
    var fj := CutFileName(baseName, j, cj);
    CutFileNamesDistinct(baseName, i, j, ci, cj);
    CutFileNameStart(baseName, i, ci);
    CutFileNameStart(baseName, j, cj);
    if fi[0] != '/' {
      JoinUnderCategory(outputDir, ci, fi);
      JoinUnderCategory(outputDir, cj, fj);
      FolderSeparates(Lead(outputDir), Name(ci), Name(cj), fi, fj);
    }
  }
}

=== FILE: loading.dfy ===
/** The in-memory effect of load_audio once the decoder has run: the
    decoded buffer (or the decode error) and the renderer's pixmap width and
    bounds are inputs; reading the file and drawing the spectrogram are not
    part of this model. */
module Loading {
  import opened Options
  import opened Samples
  import opened Session
  import opened Playback

  /** load_audio after decoding. A decode error clears the buffer and leaves
      the rest as it was. A decoded but empty buffer gets past the cursor
      reset and then fails at the spectrogram step, so the cursor is 0 and the
      buffer cleared. Otherwise the buffer becomes active with the cursor at
      0, the annotations saved for this file, the new spectrogram shown, and
      playback stopped without resetting the cursor. The pending start mark
      and the press time survive the load. Playback is not stopped on the
      error paths. */
  function LoadAudio(s: State, decoded: Option<Audio>, saved: seq<Annotation>,
                     pixmapWidth: nat, bounds: Option<Bounds>): (r: State)
    ensures decoded.None? ==> r == s.(audio := None)
    ensures decoded.Some? && |decoded.value.samples| == 0 ==> r == s.(audio := None, position := 0)
    ensures decoded.Some? && |decoded.value.samples| > 0 ==>
              && r.audio == Some(decoded.value) && Length(r) == |decoded.value.samples|
              && r.position == 0
              && r.annotations == saved
              && !r.playing && !r.streamOpen
              && r.pixmapWidth == Some(pixmapWidth) && r.bounds == bounds
              && r.gain == s.gain && r.pendingStart == s.pendingStart
              && r.labeled == s.labeled
              && r.selectionStart == s.selectionStart
              && (r.streamId > s.streamId <==> s.streamOpen)
              && r.streamId <= s.streamId + 1
              && r.streamId >= s.streamId
  {
    match decoded
    case None => s.(audio := None)
    case Some(a) =>
      if |a.samples| == 0 then s.(audio := None, position := 0)
      else
        var loaded := s.(audio := Some(a), position := 0, pixmapWidth := Some(pixmapWidth),
                         bounds := bounds, annotations := saved);
        StopPlayback(loaded, false)
  }
}

=== FILE: options.dfy ===
/** The optional value the window keeps for "not set yet" fields
    (`temp_start_time`, the displayed pixmap, the spectrogram bounds). */
module Options {

  datatype Option<+T> = None | Some(value: T)
}

=== FILE: paths.dfy ===
/** The string helpers the window and the file manager rely on: POSIX
    `os.path.join` for two components, ASCII `str.lower`, `str.endswith`,
    and the decimal rendering of an index in an f-string. */
module Paths {

  /** os.path.join(a, b) as posixpath defines it: an absolute `b` replaces
      `a`; otherwise a separator is inserted unless `a` is empty or already
      ends with one. */
  function Join(a: string, b: string): (p: string)
    ensures |b| > 0 && b[0] == '/' ==> p == b
    ensures (|b| == 0 || b[0] != '/') ==> |p| >= |a| + |b| && p[..|a|] == a
    ensures p[|p| - |b|..] == b
  {
    if |b| > 0 && b[0] == '/' then b else Lead(a) + b
  }

  /** The first component as it stands before a joined relative component:
      with a separator appended unless it is empty or already ends with one. */
  function Lead(a: string): string {
    if a == [] || a[|a| - 1] == '/' then a else a + "/"
  }

  predicate IsUpper(c: char) {
    'A' <= c <= 'Z'
  }

  function LowerChar(c: char): (d: char)
    ensures !IsUpper(d)
    ensures !IsUpper(c) ==> d == c
  {
    if IsUpper(c) then (c as int - 'A' as int + 'a' as int) as char else c
  }

  /** str.lower() restricted to ASCII letters. */
  function Lower(s: string): (r: string)
    ensures |r| == |s|
    ensures forall k :: 0 <= k < |r| ==> r[k] == LowerChar(s[k]) && !IsUpper(r[k])
  {
    seq(|s|, k requires 0 <= k < |s| => LowerChar(s[k]))
  }

  /** Lowering twice is lowering once. */
  lemma LowerIdempotent(s: string)
    ensures Lower(Lower(s)) == Lower(s)
  {
  }

  /** str.endswith(suffix); every string ends with the empty suffix. */
  predicate EndsWith(s: string, suffix: string) {
    |suffix| <= |s| && s[|s| - |suffix|..] == suffix
  }

  predicate IsDigit(c: char) {
    '0' <= c <= '9'
  }

  predicate AllDigits(s: string) {
    forall k :: 0 <= k < |s| ==> IsDigit(s[k])
  }

  function DigitChar(d: nat): (c: char)
    requires d < 10
    ensures IsDigit(c)
  {
    ('0' as int + d) as char
  }

  function DigitValue(c: char): (d: nat)
    requires IsDigit(c)
    ensures d < 10
  {
    c as int - '0' as int
  }

  /** The decimal text Python prints for a non-negative int (`f"{i}"`). */
  function NatToString(n: nat): (r: string)
    ensures |r| > 0 && AllDigits(r)
    ensures |r| == 1 || r[0] != '0'
  {
    if n < 10 then [DigitChar(n)] else NatToString(n / 10) + [DigitChar(n % 10)]
  }

  /** The reading of a digit string back as a number: the partner of NatToString. */
  function ParseNat(s: string): nat
    requires AllDigits(s)
  {
    if s == [] then 0 else ParseNat(s[..|s| - 1]) * 10 + DigitValue(s[|s| - 1])
  }

  lemma {:induction false} ParseNatToString(n: nat)
    ensures ParseNat(NatToString(n)) == n
  {
    var r := NatToString(n);
    if n >= 10 {
      ParseNatToString(n / 10);
      assert r[..|r| - 1] == NatToString(n / 10);
    }
  }

  /** Distinct indices print as distinct decimal strings. */
  lemma NatToStringInjective(i: nat, j: nat)
    requires NatToString(i) == NatToString(j)
    ensures i == j
  {
    ParseNatToString(i);
    ParseNatToString(j);
  }

  /** Splitting at the first character outside a class: if `a` and `b` lie
      inside the class and `x`, `y` start outside it, `a + x == b + y` forces
      `a == b` and `x == y`. */
  lemma SplitAtFirst(a: string, x: string, b: string, y: string, inClass: char -> bool)
    requires forall k :: 0 <= k < |a| ==> inClass(a[k])
    requires forall k :: 0 <= k < |b| ==> inClass(b[k])
    requires |x| > 0 && !inClass(x[0])
    requires |y| > 0 && !inClass(y[0])
    requires a + x == b + y
    ensures a == b && x == y
  {
    assert (a + x)[|a|] == x[0] && (b + y)[|b|] == y[0];
    assert |a| == |b|;
    assert a == (a + x)[..|a|] == (b + y)[..|b|] == b;
    assert x == (a + x)[|a|..] == (b + y)[|b|..] == y;
  }
}

=== FILE: playback.dfy ===
/** Playback control of the main window: starting and stopping the output
    stream, the stale-stream guard of the finished callback, the real-time
    block callback, seeking, and the keyboard. The sounddevice stream is
    represented only by the `streamOpen` flag and the stream id. */
module Playback {
  import opened Options
  import opened Config
  import opened Samples
  import opened Session

  /** start_playback: nothing without a buffer; otherwise playback is on, a
      cursor at or past the end rewinds to frame 0, and a new stream is opened
      under the next stream id (the id its finished callback captures). */
  function StartPlayback(s: State): (r: State)
    ensures s.audio.None? ==> r == s
    ensures s.audio.Some? ==>
              && r.playing && r.streamOpen
              && r.streamId == s.streamId + 1
              && r.position < Length(s)
              && (s.position < Length(s) ==> r.position == s.position)
              && (s.position >= Length(s) ==> r.position == 0)
              && r == s.(playing := true, streamOpen := true, streamId := r.streamId,
                         position := r.position)
  {
    if s.audio.None? then s
    else
      var start := if s.position >= Length(s) then 0 else s.position;
      s.(playing := true, position := start, streamId := s.streamId + 1, streamOpen := true)
  }

  /** stop_playback(reset_position): playback is off and no stream is open
      afterwards; the stream id moves on only if a stream was open; the cursor
      goes back to 0 only when asked to. */
  function StopPlayback(s: State, resetPosition: bool): (r: State)
    ensures !r.playing && !r.streamOpen
    ensures r.streamId > s.streamId <==> s.streamOpen
    ensures r.streamId <= s.streamId + 1
    ensures r.streamId >= s.streamId
    ensures resetPosition ==> r.position == 0
    ensures !resetPosition ==> r.position == s.position
    ensures r == s.(playing := false, streamOpen := false, streamId := r.streamId,
                    position := r.position)
  {
    var id := if s.streamOpen then s.streamId + 1 else s.streamId;
    var pos := if resetPosition then 0 else s.position;
    s.(streamId := id, streamOpen := false, playing := false, position := pos)
  }

  /** playback_finished(finished_id): a callback from a superseded stream, or
      one arriving when playback is already off, changes nothing; otherwise
      playback ends with the cursor back at frame 0. */
  function PlaybackFinished(s: State, finishedId: nat): (r: State)
    ensures finishedId != s.streamId || !s.playing ==> r == s
    ensures finishedId == s.streamId && s.playing ==>
              r == StopPlayback(s, true) && !r.playing && r.position == 0
  {
    if finishedId != s.streamId then s
    else if !s.playing then s
    else StopPlayback(s, true)
  }

  /** What one block callback leaves in the device buffer: a full block with
      more to come, a last block after which the stream completes
      (`CallbackStop`), or an exception raised inside the callback. */
  datatype Block = Continue(out: seq<real>) | Complete(out: seq<real>) | Fault

  datatype CallbackStep = CallbackStep(next: State, block: Block)

  /** audio_callback(outdata, frames): copy `frames` samples from the cursor,
      scaled by the gain, and advance the cursor by `frames`; a block that
      would run past the end copies what is left, pads with silence and
      completes the stream without moving the cursor. A cursor already past
      the end leaves nothing to copy: numpy accepts that only when the empty
      head slice is empty (the block is then all silence), and raises
      otherwise. Without a buffer `len(None)` raises. */
  function AudioCallback(s: State, frames: nat): (r: CallbackStep)
    ensures r.next == s || r.next == s.(position := s.position + frames)
    ensures s.audio.None? ==> r == CallbackStep(s, Fault)
    ensures s.audio.Some? && s.position + frames <= Length(s) ==>
              && r.next == s.(position := s.position + frames)
              && r.block.Continue? && |r.block.out| == frames
              && forall k :: 0 <= k < frames ==>
                   r.block.out[k] == s.audio.value.samples[s.position + k] * s.gain
    ensures s.audio.Some? && s.position <= Length(s) < s.position + frames ==>
              && r.next == s
              && r.block.Complete? && |r.block.out| == frames
              && (forall k :: 0 <= k < Length(s) - s.position ==>
                    r.block.out[k] == s.audio.value.samples[s.position + k] * s.gain)
              && (forall k :: Length(s) - s.position <= k < frames ==> r.block.out[k] == 0.0)
    ensures s.audio.Some? && s.position > Length(s) ==>
              && r.next == s
              && (s.position - Length(s) >= frames ==> r.block == Complete(Zeros(frames)))
              && (s.position - Length(s) < frames ==> r.block == Fault)
  {
    match s.audio
    case None => CallbackStep(s, Fault)
    case Some(a) =>
      var n := |a.samples|;
      var chunkEnd := s.position + frames;
      if chunkEnd <= n then
        CallbackStep(s.(position := chunkEnd), Continue(Scale(a.samples[s.position..chunkEnd], s.gain)))
      else if s.position <= n then
        CallbackStep(s, Complete(Scale(a.samples[s.position..], s.gain) + Zeros(chunkEnd - n)))
      else if s.position - n >= frames then
        CallbackStep(s, Complete(Zeros(frames)))
      else
        CallbackStep(s, Fault)
  }

  /** set_playback_position(value), the slider handler: the cursor is set
      as given, without clamping; a running playback is restarted there
      under a new stream (rewinding if the value is at or past the end). */
  function SetPlaybackPosition(s: State, value: nat): (r: State)
    ensures !s.playing ==> r == s.(position := value)
    ensures s.playing ==> r.streamId >= s.streamId
    ensures s.playing && s.audio.Some? ==>
              && r.streamId > s.streamId
              && r.playing && r.streamOpen
              && r.position == (if value < Length(s) then value else 0)
    ensures s.playing && s.audio.None? ==> !r.playing && r.position == value
    ensures r == s.(position := r.position, playing := r.playing, streamOpen := r.streamOpen,
                    streamId := r.streamId)
  {
    var moved := s.(position := value);
    if s.playing then StartPlayback(StopPlayback(moved, false)) else moved
  }

  /** toggle_playback, the play/pause control. */
  function TogglePlayback(s: State): (r: State)
    ensures s.audio.None? ==> r == s
    ensures s.audio.Some? && s.playing ==> !r.playing && r.position == s.position
    ensures s.audio.Some? && !s.playing ==> r.playing && r.position < Length(s)
    ensures s.audio.Some? && s.playing ==> r == StopPlayback(s, false)
    ensures s.audio.Some? && !s.playing ==> r == StartPlayback(s)
  {
    if s.audio.None? then s
    else if s.playing then StopPlayback(s, false)
    else StartPlayback(s)
  }

  datatype Key = LeftKey | RightKey | UpKey | DownKey | OtherKey

  /** The playback state after a running playback has been stopped, without
      resetting the cursor; a paused state is left alone. */
  function Paused(s: State): (r: State)
    ensures !r.playing
    ensures !s.playing ==> r == s
  {
    if s.playing then StopPlayback(s, false) else s
  }

  /** keyPressEvent: Left/Right pause playback and move the cursor one
      second (`int(samplerate)` frames) back or forward, clamped to
      [0, N-1]; they do nothing without a buffer. Up/Down step the gain by
      0.1 within [0.0, 2.0]. Other keys change nothing here. */
  function KeyPress(s: State, key: Key): (r: State)
    ensures key == LeftKey && s.audio.Some? ==>
              && r == Paused(s).(position := r.position)
              && r.position <= s.position
              && r.position + s.audio.value.rate >= s.position
              && (r.position == 0 || r.position + s.audio.value.rate == s.position)
    ensures key == RightKey && s.audio.Some? ==>
              && r == Paused(s).(position := r.position)
              && r.position < Length(s)
              && r.position <= s.position + s.audio.value.rate
              && (r.position == Length(s) - 1 || r.position == s.position + s.audio.value.rate)
    ensures key == UpKey ==>
              && r == s.(gain := r.gain)
              && r.gain <= MaxGain && r.gain <= s.gain + GainStep
              && (r.gain == MaxGain || r.gain == s.gain + GainStep)
    ensures key == DownKey ==>
              && r == s.(gain := r.gain)
              && r.gain >= MinGain && r.gain >= s.gain - GainStep
              && (r.gain == MinGain || r.gain == s.gain - GainStep)
    ensures (key == OtherKey || ((key == LeftKey || key == RightKey) && s.audio.None?)) ==> r == s
  {
    match key
    case LeftKey =>
      if s.audio.None? then s
      else
        var p := Paused(s);
        var step := s.audio.value.rate;
        p.(position := if s.position >= step then s.position - step else 0)
    case RightKey =>
      if s.audio.None? then s
      else
        var p := Paused(s);
        var step := s.audio.value.rate;
        var last := Length(s) - 1;
        p.(position := if s.position + step <= last then s.position + step else last)
    case UpKey =>
      s.(gain := if s.gain + GainStep <= MaxGain then s.gain + GainStep else MaxGain)
    case DownKey =>
      s.(gain := if s.gain - GainStep >= MinGain then s.gain - GainStep else MinGain)
    case OtherKey => s
  }

  /** Up and Down never take the gain out of [0.0, 2.0]. */
  lemma GainStaysInRange(s: State, key: Key)
    requires MinGain <= s.gain <= MaxGain
    ensures MinGain <= KeyPress(s, key).gain <= MaxGain
  {
  }
}

=== FILE: samples.dfy ===
/** The decoded sample buffer: mono float samples and their sample rate
    (`current_audio_data`, `current_samplerate`). */
module Samples {

  /** A sample rate, in frames per second; decoders never report zero. */
  type Hz = r: nat | r > 0 witness 1

  datatype Audio = Audio(samples: seq<real>, rate: Hz)

  /** A buffer that became the active one: load_audio only keeps non-empty
      buffers (an empty one fails at the spectrogram step). */
  type Buffer = a: Audio | |a.samples| > 0 witness Audio([0.0], 1)

  /** `samples * gain`, element-wise. */
  function Scale(s: seq<real>, gain: real): (r: seq<real>)
    ensures |r| == |s|
    ensures forall k :: 0 <= k < |s| ==> r[k] == s[k] * gain
  {
    seq(|s|, k requires 0 <= k < |s| => s[k] * gain)
  }

  /** `n` output slots filled with silence. */
  function Zeros(n: nat): (r: seq<real>)
    ensures |r| == n
    ensures forall k :: 0 <= k < n ==> r[k] == 0.0
  {
    seq(n, k => 0.0)
  }
}

=== FILE: session.dfy ===
/** The state the main window keeps about the open recording: the active
    buffer, what is shown of its spectrogram, the playback cursor and
    stream bookkeeping, the gain, and the annotations being edited. */
module Session {
  import opened Options
  import opened Config
  import opened Samples

  /** One labelled interval `(start_time, end_time, category)`, in seconds. */
  datatype Annotation = Annotation(start: real, end: real, category: Category)

  /** The part of `spectrogram_bounds` (left, top, width, height) that the
      x-to-time mapping reads: the plot's left edge and its width in pixels. */
  datatype Bounds = Bounds(left: real, width: nat)

  datatype State = State(
    audio: Option<Buffer>,          // current_audio_data with current_samplerate
    pixmapWidth: Option<nat>,       // width of the pixmap the spectrogram label shows, if any
    bounds: Option<Bounds>,         // spectrogram_bounds
    position: nat,                  // playback_position, in frames
    playing: bool,                  // is_playing
    streamOpen: bool,               // playback_stream is not None
    streamId: nat,                  // playback_stream_id
    gain: real,
    annotations: seq<Annotation>,
    pendingStart: Option<real>,     // temp_start_time
    selectionStart: Option<real>,   // selection_start_time, once a press has set it
    labeled: set<string>)           // keys of labeled_audios

  /** The number of frames of the active buffer, 0 when none is loaded. */
  function Length(s: State): nat {
    if s.audio.Some? then |s.audio.value.samples| else 0
  }

  /** The window just after construction, given the labelled-audio log it read. */
  function Init(labeled: set<string>): (s: State)
    ensures s.audio.None? && !s.playing && !s.streamOpen && s.streamId == 0
    ensures s.gain == InitialGain && s.annotations == [] && s.pendingStart.None?
    ensures s.position == 0 && s.pixmapWidth.None? && s.bounds.None? && s.selectionStart.None?
    ensures s.labeled == labeled
  {
    State(None, None, None, 0, false, false, 0, InitialGain, [], None, None, labeled)
  }

  /** An annotation that the acceptance rule would let through. */
  predicate Accepted(a: Annotation) {
    a.end - a.start > MinSelection
  }

  /** What holds of every window state the handlers can reach:
      - a stream is open exactly while playback is on;
      - while playing over a buffer, the cursor lies within it (at most at its end);
      - the gain lies in [0.0, 2.0];
      - every stored annotation is longer than the minimum selection. */
  ghost predicate Inv(s: State) {
    && s.streamOpen == s.playing
    && (s.playing && s.audio.Some? ==> s.position <= Length(s))
    && MinGain <= s.gain <= MaxGain
    && forall i :: 0 <= i < |s.annotations| ==> Accepted(s.annotations[i])
  }

  lemma InitInv(labeled: set<string>)
    ensures Inv(Init(labeled))
  {
  }
}
